=== FILE: README.md ===
# Settings tree and callback protocol of telegram-git-notifier

A Dafny model of the part of telegram-git-notifier that lets an operator choose, from the bot's
own inline keyboards, which source-control events are notified:

- **The settings object** (`Settings.Setting`). It keeps the decoded settings document in memory
  and knows the settings file as two facts: whether the file exists, and the document it last
  received. `UpdateSettingItem` walks a dotted path through nested maps that already exist. It
  overwrites the addressed value, or negates it when no value is given, and then saves.
- **The settings document** (`Tree`). An ordered tree whose leaves are booleans and whose inner
  nodes are nested maps. It gives the path lookups and writes that the update is specified by, with
  the properties: no partial write, siblings untouched, no key created, toggle twice is identity.
- **The callback codec** (`Callback`). A callback string is built from the event prefix, a platform
  separator, and one of three bodies. A nested map gets the has-action separator and the event. A
  leaf gets `parent.event` or the bare event, followed by the update separator. The constant
  strings are the fields of a `Protocol` value. `Protocol.Ends` says what the handler chain needs
  of them to come to an end: non-empty markers, and the prefix, the platform separators and the
  has-action separator pairwise share no character. `Protocol.Disjoint` adds what telling built
  callbacks apart needs (the update separator shares no character with the other markers, and the
  custom-events callbacks are not event callbacks), and `Protocol.WellFormed` adds what the round
  trips need besides: no marker contains a dot.
- **The menus** (`Menu`). The event menu packs one button per catalog entry, in catalog order,
  into rows of `BtnLineItemCount` (2) and always ends with a back/menu row. The settings menu has
  the two flag rows, a custom-events row only while "all events" is off, and a back-to-menu row.
- **The router** (`Router`). `Decide` is the classification `eventHandle` performs. The class
  `SettingService` holds the event catalogs of the platforms and the screens it has sent, and runs
  the handler chain `EventHandle` → `SendSettingEventMessage` → `HandleEventWithActions` →
  `HandleEventUpdate` → `EventUpdateHandle`, including the re-render that ends it. For the github and
  gitlab platforms, the lemmas prove the round trip for every button the event menu builds: a nested-map button opens that event's
  action list; an event button toggles that event and shows the event list again; an action button
  with a truthy name under a truthy parent toggles that action and shows its parent's action list again.

Sending and editing messages is recorded as a list of `Screen` values (which view, which platform
or event, which keyboard).

## Model

| member | source | states |
|---|---|---|
| `Settings.Setting.UpdateSettingItem` | src/Models/Setting.php:70-95 | the new document is the update of the old one at the exploded path; the result is true iff the path resolved and the file exists; the file receives the new document exactly when the result is true, and a change stays in memory even when the file is missing |
| `Settings.Setting.SaveSettingsToFile` | src/Models/Setting.php:102-112 | returns whether the file exists; the file receives the in-memory document only then, and a missing file is not created |
| `Settings.Setting.IsNotified` | src/Models/Setting.php:51-60 | true iff the document is non-empty and the notify key holds exactly true |
| `Settings.Setting.IsAllEventsNotification` | src/Models/Setting.php:37-46 | true iff the document is non-empty and the all-events key holds exactly true |
| `Settings.FlagOn` | src/Models/Setting.php:39-40 | a flag reads true iff the one-key path resolves to the leaf true; an empty document reads false |
| `Settings.FlagAfterUpdate` | src/Models/Setting.php:87-89 | after updating an existing boolean flag it reads the given value, or the negation of its old value when no value is given |
| `Settings.FlagMissing` | src/Models/Setting.php:87-94 | a flag whose key is not set reads false, and no update can switch it on |
| `Tree.UpdateMissing` | src/Models/Setting.php:78-94 | when some step of the path is missing or not a nested map, or the last key is not set, the document is left exactly as it was (no partial write) |
| `Tree.StoreMissing` | src/Models/Setting.php:78-85 | a write through a path that does not resolve changes nothing |
| `Tree.UpdateHit` | src/Models/Setting.php:87-89 | on an existing key the addressed value becomes the given boolean, or the negation of the old boolean when none is given |
| `Tree.UpdateElsewhere` | src/Models/Setting.php:76-89 | every path that parts ways with the updated one keeps its value, siblings included |
| `Tree.UpdateNoNewPaths` | src/Models/Setting.php:87-94 | every path that resolves after an update resolved before: the update never creates a key |
| `Tree.ToggleTwice` | src/Models/Setting.php:88 | toggling the same boolean leaf twice restores the original document |
| `Tree.ToggleGroupOverwrites` | src/Models/Setting.php:87-89 | toggling a key that holds a nested map replaces the map by a boolean: false unless the map was empty |
| `Tree.StoreTwice` | src/Models/Setting.php:89 | of two writes to one path the second wins |
| `Tree.StoreSame` | src/Models/Setting.php:89 | writing the value a path already holds changes nothing |
| `Tree.DescendSnoc` | src/Models/Setting.php:78-85 | each step of the walk goes one nested map deeper, or the walk fails |
| `Tree.LookupViaDescend` | src/Models/Setting.php:74-87 | the last key is looked up in the nested map the walk over the other keys reaches |
| `Strings.ExplodeImplode` | src/Services/SettingService.php:236 | splitting on dots loses nothing (joining the pieces gives the string back) and leaves no dot in a piece |
| `Strings.ExplodePair` | src/Services/SettingService.php:236 | a string `a.b` with dot-free parts splits into exactly `[a, b]` |
| `Callback.GetCallbackData` | src/Services/SettingService.php:73-92 | every callback begins with the prefix and the separator of its platform; a nested map's callback is exactly prefix, separator, has-action separator and event; a leaf's callback is exactly prefix, separator, `parent.event` (truthy parent) or the bare event, and the update separator |
| `Callback.GetEventName` | src/Services/SettingService.php:94-103 | the label is a glyph, a space and the event; the glyph is the gear iff the value is a nested map, the check iff it is true, the cross iff it is false |
| `Callback.GetPlatformFromCallback` | src/Services/SettingService.php:145-165 | an explicit truthy platform wins; otherwise a callback holding the github separator is github, else it is gitlab iff it holds the gitlab separator, and the default (github) otherwise; the result is never falsy |
| `Callback.PlatformRoundTrip` | src/Services/SettingService.php:79-82 | the platform (github or gitlab) a callback was built for is recovered from the callback alone |
| `Callback.StripRoundTrip` | src/Services/SettingService.php:189-196 | removing the prefix and the platform separators from a callback gives back its body |
| `Menu.ChunkLayout` | src/Services/SettingService.php:41-66 | packing keeps every button once and in order, fills every row but the last to the row width, and leaves no empty last row |
| `Menu.ChunkFull` | src/Services/SettingService.php:42-47 | rows that are already full stay in front of the packing of the rest |
| `Menu.FiveButtonsPacking` | src/Services/SettingService.php:41-66 | five buttons give rows of 2, 2 and 1 |
| `Menu.EventMarkup` | src/Services/SettingService.php:31-71 | the loop builds exactly the packed buttons of the listed entries followed by the closing row |
| `Menu.EventLayoutShape` | src/Services/SettingService.php:31-71 | the event menu has one button per listed entry in catalog order, full rows except a non-empty last event row, and ends with the closing row |
| `Menu.GetEndKeyboard` | src/Services/SettingService.php:105-124 | exactly two buttons: back to the platform's event list iff a truthy parent is open, else back to the settings menu; then the main menu |
| `Menu.CustomEventMarkup` | src/Services/SettingService.php:292-310 | the given rows are kept, and the custom-events row is appended iff all-events notification is off |
| `Menu.SettingMarkup` | src/Services/SettingService.php:257-290 | the notify row, then the all-events row, each showing the check glyph iff its flag is on; the custom-events row iff all-events is off; the back-to-menu row last |
| `Menu.FlagTruthyAgrees` | src/Services/SettingService.php:262-270 | for boolean flags the menu's reading agrees with the Setting object's strict reading |
| `Router.SettingService.EventHandle` | src/Services/SettingService.php:126-143 | only a toggle changes a catalog, toggling exactly the decided path and then showing the decided re-render; any other callback changes no catalog and shows at most the one screen decided |
| `Router.SettingService.SendSettingEventMessage` | src/Services/SettingService.php:167-187 | shows the platform's event list iff the callback is a custom-events callback or falsy |
| `Router.SettingService.HandleEventWithActions` | src/Services/SettingService.php:198-220 | shows the action list of the event left after removing the has-action separator iff that separator occurs |
| `Router.SettingService.HandleEventUpdate` | src/Services/SettingService.php:222-232 | toggles iff the update separator occurs, else changes nothing |
| `Router.SettingService.EventUpdateHandle` | src/Services/SettingService.php:234-247 | toggles the event or the truthy action under it in the platform's catalog, then shows that action list or the event list |
| `Router.TogglePath` | src/Services/SettingService.php:236-239 | a toggle names the first piece of the exploded path, and a second key iff the second piece exists and is truthy, that key then being the second piece |
| `Router.ReRenderNeverToggles` | src/Services/SettingService.php:240-246 | the callback a toggle re-renders through never toggles again |
| `Router.OverlappingMarkersLoop` | src/Services/SettingService.php:136-142 | with markers that are non-empty and distinct but share characters, the button of event `.a` decides the toggle `.a`, and the callback that toggle re-renders through decides the same toggle again |
| `Router.StripReRender` | src/Services/SettingService.php:241-243 | stripping the re-render callback keeps the has-action separator in front |
| `Router.EventListCallbacks` | src/Services/SettingService.php:172-183 | null, empty and custom-events callbacks open the event list of the explicit platform |
| `Router.EncodedIsNotSettingEvent` | src/Services/SettingService.php:172-174 | no built callback is mistaken for an event-list callback |
| `Router.GroupRoundTrip` | src/Services/SettingService.php:84-85 | the button of an event with actions is decided as "show that event's action list", on its platform |
| `Router.LeafDecides` | src/Services/SettingService.php:224-230 | the button of a leaf is decided as a toggle of `parent.event`, or of the event when there is no truthy parent |
| `Router.EventRoundTrip` | src/Services/SettingService.php:90-91 | an event button toggles exactly that event and the event list is shown again |
| `Router.ActionsReRender` | src/Services/SettingService.php:240-246 | the re-render callback of an action list (platform separator, has-action separator, parent) decides to show that parent's action list again |
| `Router.ActionRoundTrip` | src/Services/SettingService.php:86-88 | an action button toggles exactly that action under its parent and the parent's action list is shown again |

## Left out

- Reading the settings file and JSON decoding (`setSettingFile`, `setSettingConfig`) are I/O and not modelled. The document starts as the constructor's argument. JSON encoding and pretty printing are not modelled either: the file's content is the document itself.
- Persistence is one step that replaces the file's document. The source does a plain write with an exclusive lock, not a write-then-rename. A crash during the write, the lock, and concurrent requests are not modelled.
- `Settings.Setting.SaveSettingsToFile`: the source ignores the result of `file_put_contents` and returns true whenever the file exists, even if the write fails (src/Models/Setting.php:104-108). The model assumes every write to an existing file succeeds: its `persisted == settings` on a true result does not hold in the source when the write fails.
- Values in the document are booleans and nested maps only. Strings, numbers and null from JSON are not modelled, and keys are strings (PHP's integer keys are not).
- The `Event` model is not part of this model. Its catalog loading (`setEventConfig`) and its `updateEvent` are modelled as a map from platform to document. The update is assumed to toggle the path `[event]` or `[event, action]` the way `Setting::updateSettingItem` does with no value. A platform without a catalog lists nothing and is never changed.
- The values of the constant classes are not part of this model. The protocol strings are the fields of `Callback.Protocol`.
  - Stripping a callback (`Callback.GetEventFromCallback`), classifying it (`Router.Decide`), `Router.SettingService.HandleEventWithActions` and `Router.EventListCallbacks` need only non-empty markers (`Protocol.Markers`).
  - The recursive handler chain (`Router.SettingService.EventHandle`, `HandleEventUpdate`, `EventUpdateHandle`), its termination measure and `Callback.StripRoundTrip` need `Protocol.Ends`: non-empty markers, with the prefix, the two platform separators and the has-action separator pairwise sharing no character. That is stronger than distinct and non-empty, and the chain needs it to come to an end. The update separator and the custom-events callbacks are not constrained there.
  - With markers that are distinct but share characters, the re-render after a toggle can decide the same toggle again. `eventUpdateHandle` and `eventHandle` then call each other without end (`Router.OverlappingMarkersLoop`: prefix `P`, separators `G` and `L`, has-action `G.xa`, update `x`, event `.a`). The handler methods are not modelled for such constants.
  - `Router.EncodedIsNotSettingEvent` and `Router.ActionsReRender` also need `Protocol.Disjoint`. That adds an update separator sharing no character with the other markers, and custom-events callbacks that neither start with the prefix nor share a character with the has-action separator.
  - Only the round-trip lemmas also need dot-free markers (`Protocol.WellFormed`). Their other assumptions:
    - Event and action names have no dot and no marker character (`Protocol.IsName`).
    - The platform is github or gitlab (`Callback.PlatformRoundTrip`, `Router.GroupRoundTrip`, `Router.LeafDecides`, `Router.EventRoundTrip`, `Router.ActionRoundTrip`).
    - `Router.ActionRoundTrip` also needs a truthy parent and a truthy action name. An action named `0` under parent `p` is built as `p.0` and decides a toggle of `p.0`, but `eventUpdateHandle` reads the falsy action as absent: in the model it toggles `[p]` (overwriting the parent's action map, `Tree.ToggleGroupOverwrites`) and re-renders the event list.
- The keys of the two settings flags are taken to be `is_notified` and `all_events_notify` (`Settings.IsNotifiedKey`, `Settings.AllEventsKey`). The constant class that holds them is not part of this model; the proofs hold for any two keys.
- The default platform is taken to be `github`. The platform-to-separator table used for the re-render maps github and gitlab to their separators and any other platform to the empty string. The row width is taken to be 2.
- The transport's limit on callback length is not checked by the source and is not modelled.
- Message texts (`view()`, `config()`) and Telegram calls (`editMessageText`, `sendMessage`, `answerCallbackQuery`) are external. The model records each edited message as a `Router.Screen`. `settingHandle` only sends `settingMarkup`, so only `Menu.SettingMarkup` is modelled.
- `settingMarkup` and `customEventMarkup` read the flags as `$this->setting[...]` on the Setting object (src/Services/SettingService.php:262, 270 and 294). The Setting class does not implement array access, so as written these two functions raise a PHP error and never return a keyboard. `Menu.SettingMarkup` and `Menu.CustomEventMarkup` model the evidently intended reading: the truthiness of the flag in the settings document.
- A PHP "undefined key" warning is modelled as the null it yields. For example, a one-piece path has a null action, and a missing parent lists no entries.
- `Callback.GetEventFromCallback` has no contract of its own. What it does on built callbacks is stated by `Callback.StripRoundTrip` and the router's round-trip lemmas.
- `src/Services/NotificationService.php`, `src/Services/AppService.php` and `src/Interfaces/NotificationInterface.php` (webhook notification, transport wrappers, signatures) are not part of this model.
- Toggling a key that holds a nested map does not fail in the source: it replaces the map with a boolean (`Tree.ToggleGroupOverwrites`). The model follows the code. Buttons built from the current catalog never reach this case, because a nested map's button opens its action list (`Router.GroupRoundTrip`). An arbitrary callback can reach it: the prefix, a platform separator, the name of an event that holds a nested map, and the update separator decide a toggle of that event (`Router.Decide`), and the toggle replaces its action map with a boolean.

=== FILE: callback.dfy ===
/**
 * The inline-keyboard callback codec: how a button of the event menu
 * names the platform, the parent event and the event it stands for, and
 * how the router takes such a string apart again.
 */
module Callback {
  import opened Wrappers
  import opened Strings
  import opened Tree

  /** The platform assumed when none can be told from a callback. */
  const DefaultPlatform: string := "github"
  const GithubPlatform: string := "github"
  const GitlabPlatform: string := "gitlab"

  /**
   * The constant strings of the protocol. Their values live in constant
   * classes outside this model, so they are parameters here.
   */
  datatype Protocol = Protocol(
    /** marks a callback as an event-menu callback */
    prefix: string,
    /** the platform separators */
    githubSeparator: string,
    gitlabSeparator: string,
    /** marks "open the action list of this event" */
    hasActionSeparator: string,
    /** marks "toggle this event or action" */
    updateSeparator: string,
    /** settings-menu callbacks that open the custom event list of a platform */
    githubEvents: string,
    gitlabEvents: string,
    /** callbacks of the back and menu buttons */
    backToSettingsMenu: string,
    backToEventsMenu: string,
    backToMainMenu: string,
    /** settings-menu callbacks of the two flags and of the back-to-menu button */
    isNotifiedCallback: string,
    allEventsCallback: string,
    settingBack: string)
  {
    /** The five markers are non-empty, so that removing one is defined. */
    predicate Markers() {
      && prefix != [] && githubSeparator != [] && gitlabSeparator != []
      && hasActionSeparator != [] && updateSeparator != []
    }

    /**
     * What the router needs of the constants to come to an end: the five
     * markers are non-empty, and the prefix, the platform separators and
     * the has-action separator pairwise share no character.
     */
    predicate Ends() {
      && Markers()
      && Apart(prefix, githubSeparator) && Apart(prefix, gitlabSeparator)
      && Apart(prefix, hasActionSeparator)
      && Apart(githubSeparator, gitlabSeparator) && Apart(githubSeparator, hasActionSeparator)
      && Apart(gitlabSeparator, hasActionSeparator)
    }

    /**
     * What the callbacks the menus build need to be told apart: besides, the
     * update separator shares no character with another marker, and the two
     * custom-events callbacks can be told apart from every event callback.
     */
    predicate Disjoint() {
      && Ends()
      && Apart(prefix, updateSeparator) && Apart(githubSeparator, updateSeparator)
      && Apart(gitlabSeparator, updateSeparator) && Apart(hasActionSeparator, updateSeparator)
      && !(prefix <= githubEvents) && !(prefix <= gitlabEvents)
      && NoShared(githubEvents, hasActionSeparator) && NoShared(gitlabEvents, hasActionSeparator)
    }

    /**
     * What the round trips need besides: no marker contains the dot that
     * joins a parent event and its action.
     */
    predicate WellFormed() {
      && Disjoint()
      && '.' !in prefix && '.' !in githubSeparator && '.' !in gitlabSeparator
      && '.' !in hasActionSeparator && '.' !in updateSeparator
    }

    /** An event or action name the codec can carry: no dot and no marker character. */
    predicate IsName(s: string) {
      && '.' !in s
      && NoShared(s, prefix) && NoShared(s, githubSeparator) && NoShared(s, gitlabSeparator)
      && NoShared(s, hasActionSeparator) && NoShared(s, updateSeparator)
    }
  }

  /** One choice of constants that meets the protocol's needs. */
  function SampleProtocol(): (k: Protocol)
    ensures k.WellFormed()
  {
    var k := Protocol("#", "^", "~", "@", "!", "setting.github_events", "setting.gitlab_events",
                      "back.settings", "back.events.", "back.menu",
                      "setting.is_notified", "setting.all_events_notify", "back.");
    assert k.githubEvents[0] != k.prefix[0] && k.gitlabEvents[0] != k.prefix[0];
    k
  }

  /** The separator that names a platform when a callback is built. */
  function PlatformSeparator(k: Protocol, platform: string): string {
    if platform == DefaultPlatform then k.githubSeparator else k.gitlabSeparator
  }

  /** The platform-to-separator table used when the router re-renders a menu. */
  function SeparatorOf(k: Protocol, platform: string): string {
    if platform == GithubPlatform then k.githubSeparator
    else if platform == GitlabPlatform then k.gitlabSeparator
    else ""
  }

  /**
   * The callback of the button for `event` (whose current value is `value`)
   * in the menu of `parent`: a nested map opens its action list, a boolean
   * toggles, under its parent when the parent is truthy.
   */
  function GetCallbackData(k: Protocol, event: string, platform: string, value: Node,
                           parent: Option<string>): (r: string)
    ensures k.prefix + PlatformSeparator(k, platform) <= r
    ensures value.Group? ==> r == k.prefix + PlatformSeparator(k, platform) + k.hasActionSeparator + event
    ensures value.Leaf? && TruthyOpt(parent) ==>
      r == k.prefix + PlatformSeparator(k, platform) + parent.value + "." + event + k.updateSeparator
    ensures value.Leaf? && !TruthyOpt(parent) ==>
      r == k.prefix + PlatformSeparator(k, platform) + event + k.updateSeparator
    ensures value.Leaf? ==> |r| >= |k.updateSeparator| && r[|r| - |k.updateSeparator|..] == k.updateSeparator
  {
    var head := k.prefix + PlatformSeparator(k, platform);
    if value.Group? then head + k.hasActionSeparator + event
    else if TruthyOpt(parent) then head + parent.value + "." + event + k.updateSeparator
    else head + event + k.updateSeparator
  }

  /** The gear glyph of an event with actions. */
  const Gear: char := '⚙'
  /** The check glyph of an enabled event. */
  const Check: char := '✅'
  /** The cross glyph of a disabled event. */
  const Cross: char := '❌'

  /**
   * The label of an event button: a status glyph, a space, the name. The
   * glyph tells a nested map, an enabled and a disabled event apart.
   */
  function GetEventName(event: string, value: Node): (r: string)
    ensures |r| == |event| + 2 && r[1] == ' ' && r[2..] == event
    ensures r[0] == Gear <==> value.Group?
    ensures r[0] == Check <==> value == Leaf(true)
    ensures r[0] == Cross <==> value == Leaf(false)
  {
    var glyph := if value.Group? then Gear else if value.on then Check else Cross;
    [glyph, ' '] + event
  }

  /**
   * The platform of a callback: an explicit truthy platform wins; otherwise
   * the github separator is looked for before the gitlab one, and the
   * default platform is the fallback. The result is never falsy.
   */
  function GetPlatformFromCallback(k: Protocol, callback: Option<string>, platform: Option<string>): (r: string)
    ensures Truthy(r)
    ensures TruthyOpt(platform) ==> r == platform.value
    ensures !TruthyOpt(platform) ==> r == GithubPlatform || r == GitlabPlatform
    ensures !TruthyOpt(platform) && Contains(OrEmpty(callback), k.githubSeparator) ==> r == GithubPlatform
    ensures !TruthyOpt(platform) && !Contains(OrEmpty(callback), k.githubSeparator) ==>
      (r == GitlabPlatform <==> Contains(OrEmpty(callback), k.gitlabSeparator))
  {
    if TruthyOpt(platform) then platform.value
    else if Contains(OrEmpty(callback), k.githubSeparator) then GithubPlatform
    else if Contains(OrEmpty(callback), k.gitlabSeparator) then GitlabPlatform
    else DefaultPlatform
  }

  /** The callback without the prefix and the platform separators (removed in that order). */
  function GetEventFromCallback(k: Protocol, callback: Option<string>): string
    requires k.Markers()
  {
    Remove(Remove(Remove(OrEmpty(callback), k.prefix), k.githubSeparator), k.gitlabSeparator)
  }

  /** The three shapes of an encoded callback, after the prefix and the platform separator. */
  function EncodedBody(k: Protocol, event: string, value: Node, parent: Option<string>): string {
    if value.Group? then k.hasActionSeparator + event
    else if TruthyOpt(parent) then parent.value + "." + event + k.updateSeparator
    else event + k.updateSeparator
  }

  /** A callback is its prefix, its platform separator and one of the three bodies. */
  lemma CallbackShape(k: Protocol, event: string, platform: string, value: Node, parent: Option<string>)
    ensures GetCallbackData(k, event, platform, value, parent)
         == k.prefix + PlatformSeparator(k, platform) + EncodedBody(k, event, value, parent)
  {
  }

  /** The body of a callback built from names shares no character with the prefix or a platform separator. */
  lemma BodyIsClean(k: Protocol, event: string, value: Node, parent: Option<string>)
    requires k.WellFormed() && k.IsName(event)
    requires TruthyOpt(parent) ==> k.IsName(parent.value)
    ensures var body := EncodedBody(k, event, value, parent);
      NoShared(body, k.prefix) && NoShared(body, k.githubSeparator) && NoShared(body, k.gitlabSeparator)
  {
  }

  /**
   * Stripping a callback of its prefix and its platform separator gives
   * back its body, whichever platform built it, as long as the body holds
   * no character of the prefix or of a platform separator.
   */
  lemma StripRoundTrip(k: Protocol, platform: string, body: string)
    requires k.Ends()
    requires NoShared(body, k.prefix) && NoShared(body, k.githubSeparator) && NoShared(body, k.gitlabSeparator)
    ensures GetEventFromCallback(k, Some(k.prefix + PlatformSeparator(k, platform) + body)) == body
  {
    var sep := PlatformSeparator(k, platform);
    assert k.prefix + sep + body == k.prefix + (sep + body);
    RemoveLead(k.prefix, sep + body);
    RemoveUntouched(sep + body, k.prefix);
    if sep == k.githubSeparator {
      RemoveLead(k.githubSeparator, body);
      RemoveUntouched(body, k.githubSeparator);
      RemoveUntouched(body, k.gitlabSeparator);
    } else {
      RemoveUntouched(sep + body, k.githubSeparator);
      RemoveLead(k.gitlabSeparator, body);
      RemoveUntouched(body, k.gitlabSeparator);
    }
  }

  /**
   * The platform of a callback built for github or gitlab is recovered from
   * the callback alone.
   */
  lemma PlatformRoundTrip(k: Protocol, event: string, platform: string, value: Node, parent: Option<string>)
    requires k.WellFormed() && k.IsName(event)
    requires TruthyOpt(parent) ==> k.IsName(parent.value)
    requires platform == GithubPlatform || platform == GitlabPlatform
    ensures GetPlatformFromCallback(k, Some(GetCallbackData(k, event, platform, value, parent)), None) == platform
  {
    var body := EncodedBody(k, event, value, parent);
    BodyIsClean(k, event, value, parent);
    CallbackShape(k, event, platform, value, parent);
    var sep := PlatformSeparator(k, platform);
    assert k.prefix + sep + body == k.prefix + (sep + body);
    ContainsSkip(k.prefix, sep + body, sep);
    assert sep <= sep + body;
    if platform == GitlabPlatform {
      NotContains(k.prefix + sep + body, k.githubSeparator);
    }
  }
}

=== FILE: menu.dfy ===
/**
 * The inline keyboards of the settings screens: the event menu (event
 * buttons packed into rows, then a back/menu row) and the settings menu.
 * A button is its label and its callback string.
 */
module Menu {
  import opened Wrappers
  import opened Strings
  import opened Tree
  import opened Settings
  import opened Callback

  datatype Button = Button(text: string, callback: string)
  type Row = seq<Button>
  type Grid = seq<Row>

  /** How many event buttons a row of the event menu holds. */
  const BtnLineItemCount: nat := 2

  /** The buttons of a grid, row after row. */
  function Flatten(g: Grid): seq<Button> {
    if g == [] then [] else g[0] + Flatten(g[1..])
  }

  /** Rows of `width` buttons in order; the last row holds what is left over. */
  function Chunk(xs: seq<Button>, width: nat): seq<Row>
    requires width > 0
    decreases |xs|
  {
    if xs == [] then []
    else if |xs| <= width then [xs]
    else [xs[..width]] + Chunk(xs[width..], width)
  }

  lemma {:induction false} FlattenSnoc(g: Grid, r: Row)
    ensures Flatten(g + [r]) == Flatten(g) + r
  {
    if g != [] {
      assert (g + [r])[1..] == g[1..] + [r];
      FlattenSnoc(g[1..], r);
    } else {
      assert Flatten([r]) == r + Flatten([]);
    }
  }

  /** Packing keeps every button once and in order. */
  lemma {:induction false} ChunkFlatten(xs: seq<Button>, width: nat)
    requires width > 0
    ensures Flatten(Chunk(xs, width)) == xs
    decreases |xs|
  {
    if |xs| > width {
      ChunkFlatten(xs[width..], width);
      var rest := Chunk(xs[width..], width);
      assert Chunk(xs, width) == [xs[..width]] + rest;
      assert Flatten(Chunk(xs, width)) == xs[..width] + Flatten(rest);
      assert xs[..width] + xs[width..] == xs;
    } else if xs != [] {
      assert Flatten([xs]) == xs + Flatten([]);
    }
  }

  /** Every row but the last is full, and the last row is neither empty nor over-full. */
  lemma {:induction false} ChunkRows(xs: seq<Button>, width: nat)
    requires width > 0
    ensures var g := Chunk(xs, width);
      && (g == [] <==> xs == [])
      && (forall i :: 0 <= i < |g| - 1 ==> |g[i]| == width)
      && (g != [] ==> 0 < |g[|g| - 1]| <= width)
    decreases |xs|
  {
    if |xs| > width {
      ChunkRows(xs[width..], width);
      var rest := Chunk(xs[width..], width);
      var g := [xs[..width]] + rest;
      assert Chunk(xs, width) == g;
      assert forall i :: 1 <= i < |g| ==> g[i] == rest[i - 1];
    }
  }

  /**
   * Packing keeps every button once and in order, fills every row but the
   * last to exactly `width`, and never leaves an empty last row.
   */
  lemma ChunkLayout(xs: seq<Button>, width: nat)
    requires width > 0
    ensures var g := Chunk(xs, width);
      && Flatten(g) == xs
      && (forall i :: 0 <= i < |g| - 1 ==> |g[i]| == width)
      && (g == [] <==> xs == [])
      && (g != [] ==> 0 < |g[|g| - 1]| <= width)
  {
    ChunkFlatten(xs, width);
    ChunkRows(xs, width);
  }

  /** Rows that are already full are kept as they are in front of the packed rest. */
  lemma {:induction false} ChunkFull(rows: Grid, tail: seq<Button>, width: nat)
    requires width > 0
    requires forall i :: 0 <= i < |rows| ==> |rows[i]| == width
    ensures Chunk(Flatten(rows) + tail, width) == rows + Chunk(tail, width)
    decreases |rows|
  {
    if rows == [] {
      assert Flatten(rows) + tail == tail;
    } else {
      var r := rows[0];
      var rest := Flatten(rows[1..]) + tail;
      assert Flatten(rows) + tail == r + rest;
      ChunkFull(rows[1..], tail, width);
      if rest == [] {
        assert r + rest == r;
        assert rows[1..] == [];
      } else {
        assert (r + rest)[..width] == r;
        assert (r + rest)[width..] == rest;
      }
      assert rows == [r] + rows[1..];
    }
  }

  /** Five buttons in rows of two: two full rows and a last row of one. */
  lemma FiveButtonsPacking(xs: seq<Button>)
    requires |xs| == 5
    ensures var g := Chunk(xs, BtnLineItemCount);
      |g| == 3 && |g[0]| == 2 && |g[1]| == 2 && g[2] == [xs[4]]
  {
    var w := BtnLineItemCount;
    assert xs[w..][w..] == xs[4..] == [xs[4]];
    assert Chunk(xs[4..], w) == [[xs[4]]];
    assert Chunk(xs[w..], w) == [xs[w..][..w]] + Chunk(xs[w..][w..], w);
    assert Chunk(xs, w) == [xs[..w]] + Chunk(xs[w..], w);
  }

  /**
   * The entries the event menu lists: the whole catalog, or the actions of
   * the parent event. A parent that is missing or not a nested map lists
   * nothing.
   */
  function ChildrenAt(config: seq<Entry>, parent: Option<string>): seq<Entry> {
    if parent.None? then config
    else match Find(config, parent.value)
      case Some(Group(c)) => c
      case _ => []
  }

  /** The button of one catalog entry. */
  function EventButton(k: Protocol, e: Entry, platform: string, parent: Option<string>): Button {
    Button(GetEventName(e.key, e.node), GetCallbackData(k, e.key, platform, e.node, parent))
  }

  /** The buttons of a list of entries, one per entry, in catalog order. */
  function EventButtons(k: Protocol, events: seq<Entry>, platform: string, parent: Option<string>): seq<Button> {
    seq(|events|, i requires 0 <= i < |events| => EventButton(k, events[i], platform, parent))
  }

  /**
   * The closing row of the event menu: a back button, to the event list of
   * the platform when a truthy parent is open and to the settings menu
   * otherwise, and a button to the main menu.
   */
  function GetEndKeyboard(k: Protocol, platform: string, parent: Option<string>): (r: Row)
    ensures |r| == 2
    ensures TruthyOpt(parent) ==> r[0].callback == k.backToEventsMenu + platform
    ensures !TruthyOpt(parent) ==> r[0].callback == k.backToSettingsMenu
    ensures r[1].callback == k.backToMainMenu
  {
    var back := if TruthyOpt(parent) then k.backToEventsMenu + platform else k.backToSettingsMenu;
    [Button("\U{1F519} Back", back), Button("\U{1F4DA} Menu", k.backToMainMenu)]
  }

  /** The event menu: the packed event buttons, then the closing row. */
  function EventLayout(k: Protocol, config: seq<Entry>, parent: Option<string>, platform: string): Grid {
    Chunk(EventButtons(k, ChildrenAt(config, parent), platform, parent), BtnLineItemCount)
      + [GetEndKeyboard(k, platform, parent)]
  }

  /**
   * The event menu has one button per listed entry, in catalog order, in
   * rows of exactly `BtnLineItemCount` except a non-empty last event row,
   * and always ends with the two-button closing row.
   */
  lemma EventLayoutShape(k: Protocol, config: seq<Entry>, parent: Option<string>, platform: string)
    ensures var g := EventLayout(k, config, parent, platform);
      var events := ChildrenAt(config, parent);
      var rows := g[..|g| - 1];
      && |g| >= 1
      && g[|g| - 1] == GetEndKeyboard(k, platform, parent)
      && |Flatten(rows)| == |events|
      && (forall i :: 0 <= i < |events| ==> Flatten(rows)[i] == EventButton(k, events[i], platform, parent))
      && (forall i :: 0 <= i < |rows| - 1 ==> |rows[i]| == BtnLineItemCount)
      && (rows != [] ==> 0 < |rows[|rows| - 1]| <= BtnLineItemCount)
      && (rows == [] <==> events == [])
  {
    var buttons := EventButtons(k, ChildrenAt(config, parent), platform, parent);
    ChunkLayout(buttons, BtnLineItemCount);
    var g := EventLayout(k, config, parent, platform);
    assert g[..|g| - 1] == Chunk(buttons, BtnLineItemCount);
  }

  /** Full rows and a row being filled that together hold `done`, in order. */
  predicate Packed(rows: Grid, item: Row, done: seq<Button>, width: nat) {
    && Flatten(rows) + item == done
    && (forall j :: 0 <= j < |rows| ==> |rows[j]| == width)
    && |item| <= width
  }

  /** Adding a button, after moving a full row out of the way, keeps the packing. */
  lemma PackStep(rows: Grid, item: Row, done: seq<Button>, x: Button, width: nat)
    requires width > 0 && Packed(rows, item, done, width)
    ensures |item| == width ==> Packed(rows + [item], [x], done + [x], width)
    ensures |item| != width ==> Packed(rows, item + [x], done + [x], width)
  {
    FlattenSnoc(rows, item);
    assert Flatten(rows) + (item + [x]) == done + [x];
    assert Flatten(rows + [item]) + [x] == done + [x];
  }

  /** Once every button is packed, the rows and the non-empty last row are exactly their packing. */
  lemma PackedChunk(rows: Grid, item: Row, done: seq<Button>, width: nat)
    requires width > 0 && Packed(rows, item, done, width)
    ensures Chunk(done, width) == rows + (if item == [] then [] else [item])
  {
    ChunkFull(rows, item, width);
    if item == [] {
      assert rows + [] == rows;
    }
  }

  /**
   * Builds the event menu of `parent` (or of the whole catalog) for a
   * platform, filling a row until it is full before starting the next.
   */
  method EventMarkup(k: Protocol, config: seq<Entry>, parent: Option<string>, platform: string)
    returns (replyMarkup: Grid)
    ensures replyMarkup == EventLayout(k, config, parent, platform)
  {
    var events := ChildrenAt(config, parent);
    ghost var buttons := EventButtons(k, events, platform, parent);
    replyMarkup := [];
    var replyMarkupItem: Row := [];
    var i := 0;
    while i < |events|
      invariant 0 <= i <= |events|
      invariant Packed(replyMarkup, replyMarkupItem, buttons[..i], BtnLineItemCount)
    {
      var callbackData := GetCallbackData(k, events[i].key, platform, events[i].node, parent);
      var eventName := GetEventName(events[i].key, events[i].node);
      assert Button(eventName, callbackData) == buttons[i];
      PackStep(replyMarkup, replyMarkupItem, buttons[..i], buttons[i], BtnLineItemCount);
      if |replyMarkupItem| == BtnLineItemCount {
        replyMarkup := replyMarkup + [replyMarkupItem];
        replyMarkupItem := [];
      }
      replyMarkupItem := replyMarkupItem + [Button(eventName, callbackData)];
      assert buttons[..i + 1] == buttons[..i] + [buttons[i]];
      i := i + 1;
    }
    assert buttons[..i] == buttons;
    PackedChunk(replyMarkup, replyMarkupItem, buttons, BtnLineItemCount);
    if |replyMarkupItem| > 0 {
      replyMarkup := replyMarkup + [replyMarkupItem];
    }
    replyMarkup := replyMarkup + [GetEndKeyboard(k, platform, parent)];
  }

  /**
   * How the settings menu reads a flag: the PHP truthiness of the value
   * under the key, an unset key reading false.
   */
  function FlagTruthy(d: seq<Entry>, key: string): bool {
    match Find(d, key)
    case Some(Leaf(b)) => b
    case Some(Group(c)) => c != []
    case None => false
  }

  /** For a boolean flag, truthiness and the strict reading of the Setting object agree. */
  lemma FlagTruthyAgrees(d: seq<Entry>, key: string, b: bool)
    requires Find(d, key) == Some(Leaf(b))
    ensures FlagTruthy(d, key) == FlagOn(d, key) == b
  {
  }

  /** The row of the two custom event lists, one per platform. */
  function CustomEventsRow(k: Protocol): Row {
    [Button("\U{1F991} Custom github events", k.githubEvents),
     Button("\U{1F98A} Custom gitlab events", k.gitlabEvents)]
  }

  /**
   * Appends the custom-events row when notifying about every event is off;
   * otherwise the markup is returned as it is.
   */
  function CustomEventMarkup(k: Protocol, settings: seq<Entry>, markup: Grid): (r: Grid)
    ensures |r| == |markup| + (if FlagTruthy(settings, AllEventsKey) then 0 else 1)
    ensures r[..|markup|] == markup
    ensures !FlagTruthy(settings, AllEventsKey) ==> r[|markup|] == CustomEventsRow(k)
  {
    if !FlagTruthy(settings, AllEventsKey) then markup + [CustomEventsRow(k)] else markup
  }

  /** A flag button: its label carries the check glyph exactly when the flag is on. */
  function FlagButton(on: bool, caption: string, callback: string): Button {
    Button(if on then [Check, ' '] + caption else caption, callback)
  }

  /**
   * The settings menu: the notifications flag row, the all-events flag
   * row, the custom-events row only while all-events is off, and the
   * back-to-menu row last.
   */
  function SettingMarkup(k: Protocol, settings: seq<Entry>): (r: Grid)
    ensures |r| == if FlagTruthy(settings, AllEventsKey) then 3 else 4
    ensures |r[0]| == 1 && r[0][0].callback == k.isNotifiedCallback
    ensures r[0][0].text != [] && (r[0][0].text[0] == Check <==> FlagTruthy(settings, IsNotifiedKey))
    ensures |r[1]| == 1 && r[1][0].callback == k.allEventsCallback
    ensures r[1][0].text != [] && (r[1][0].text[0] == Check <==> FlagTruthy(settings, AllEventsKey))
    ensures (|r| == 4) <==> !FlagTruthy(settings, AllEventsKey)
    ensures |r| == 4 ==> r[2] == CustomEventsRow(k)
    ensures r[|r| - 1] == [Button("\U{1F519} Back to menu", k.settingBack + "menu")]
  {
    var markup := [
      [FlagButton(FlagTruthy(settings, IsNotifiedKey), "Allow notifications", k.isNotifiedCallback)],
      [FlagButton(FlagTruthy(settings, AllEventsKey), "Enable All Events Notify", k.allEventsCallback)]
    ];
    var withCustom := CustomEventMarkup(k, settings, markup);
    withCustom + [[Button("\U{1F519} Back to menu", k.settingBack + "menu")]]
  }
}

=== FILE: router.dfy ===
/**
 * The callback router of the settings screens: it reads a pressed
 * button's callback, opens the event list or an action list, or toggles
 * an event or action and shows the menu it belongs to again.
 */
module Router {
  import opened Wrappers
  import opened Strings
  import opened Tree
  import opened Callback
  import opened Menu

  /** What a callback asks the router to do. */
  datatype Step =
    | ShowEvents(platform: string)
    | ShowActions(platform: string, event: string)
    | Toggle(platform: string, path: string)
    | Ignore

  /**
   * A message the router edited: which view it shows (the event list of a
   * platform, or the action list of an event) and its inline keyboard.
   */
  datatype Screen =
    | EventsScreen(platform: string, markup: Grid)
    | ActionsScreen(event: string, platform: string, markup: Grid)

  /** A callback that opens the event list: a custom-events entry, null, "" or "0". */
  predicate IsSettingEventCallback(k: Protocol, callback: Option<string>) {
    callback == Some(k.githubEvents) || callback == Some(k.gitlabEvents) || !TruthyOpt(callback)
  }

  /**
   * The decision the router takes on a callback, in the order it checks:
   * event-list callbacks first, then the has-action separator, then the
   * update separator; anything else is ignored.
   */
  function Decide(k: Protocol, callback: Option<string>, platform: Option<string>): Step
    requires k.Markers()
  {
    var p := GetPlatformFromCallback(k, callback, platform);
    if IsSettingEventCallback(k, callback) then ShowEvents(p)
    else
      var event := GetEventFromCallback(k, callback);
      if Contains(event, k.hasActionSeparator) then ShowActions(p, Remove(event, k.hasActionSeparator))
      else if Contains(event, k.updateSeparator) then Toggle(p, Remove(event, k.updateSeparator))
      else Ignore
  }

  /** 1 for a callback that toggles, 0 otherwise: a toggle re-renders through a callback that does not toggle. */
  ghost function Rank(k: Protocol, callback: Option<string>, platform: Option<string>): nat
    requires k.Ends()
  {
    if Decide(k, callback, platform).Toggle? then 1 else 0
  }

  /** The event catalog of a platform; a platform without one lists nothing. */
  function ConfigOf(configs: map<string, seq<Entry>>, platform: string): seq<Entry> {
    if platform in configs then configs[platform] else []
  }

  /** The event and, when it is truthy, the action named by a toggle. */
  function TogglePath(path: string): (r: seq<string>)
    ensures 1 <= |r| <= 2 && r[0] == Explode(path)[0]
    ensures |r| == 2 <==> (|Explode(path)| >= 2 && Truthy(Explode(path)[1]))
    ensures |r| == 2 ==> r[1] == Explode(path)[1]
  {
    var parts := Explode(path);
    if |parts| >= 2 && Truthy(parts[1]) then [parts[0], parts[1]] else [parts[0]]
  }

  /** The catalogs after a toggle: the addressed leaf of the platform's catalog is negated. */
  function ToggleConfigs(configs: map<string, seq<Entry>>, platform: string, path: string): map<string, seq<Entry>> {
    if platform in configs then configs[platform := Update(configs[platform], TogglePath(path), None)]
    else configs
  }

  /** After toggling an action, its event's action list is shown again; after an event, the event list. */
  function ReRenderCallback(k: Protocol, platform: string, path: string): Option<string> {
    var parts := Explode(path);
    if |parts| >= 2 && Truthy(parts[1]) then Some(SeparatorOf(k, platform) + k.hasActionSeparator + parts[0])
    else None
  }

  /** The screens a step shows. */
  function Render(k: Protocol, configs: map<string, seq<Entry>>, step: Step): seq<Screen> {
    match step
    case ShowEvents(p) => [EventsScreen(p, EventLayout(k, ConfigOf(configs, p), None, p))]
    case ShowActions(p, e) => [ActionsScreen(e, p, EventLayout(k, ConfigOf(configs, p), Some(e), p))]
    case _ => []
  }

  // ------------------------------------------------------------ the handler

  class SettingService {
    const k: Protocol
    /** The event catalog of each platform. */
    var eventConfigs: map<string, seq<Entry>>
    /** The messages edited so far, oldest first. */
    var screens: seq<Screen>

    constructor (k: Protocol, eventConfigs: map<string, seq<Entry>>)
      ensures this.k == k && this.eventConfigs == eventConfigs && screens == []
    {
      this.k := k;
      this.eventConfigs := eventConfigs;
      screens := [];
    }

    /**
     * Handles a callback of the event menus. Only a toggle changes a
     * catalog; every other callback shows at most one screen and changes
     * nothing else.
     */
    method EventHandle(callback: Option<string>, platform: Option<string>)
      requires k.Ends()
      modifies this
      decreases Rank(k, callback, platform), 3
      ensures var step := Decide(k, callback, platform);
        if step.Toggle? then
          && eventConfigs == ToggleConfigs(old(eventConfigs), step.platform, step.path)
          && screens == old(screens)
               + Render(k, eventConfigs, Decide(k, ReRenderCallback(k, step.platform, step.path), Some(step.platform)))
        else
          && eventConfigs == old(eventConfigs)
          && screens == old(screens) + Render(k, eventConfigs, step)
    {
      var p := GetPlatformFromCallback(k, callback, platform);
      var sent := SendSettingEventMessage(p, callback);
      if sent {
        return;
      }
      var event := GetEventFromCallback(k, callback);
      var shown := HandleEventWithActions(event, p);
      if shown {
        return;
      }
      HandleEventUpdate(event, p);
    }

    /** Shows the event list of the platform when the callback asks for it. */
    method SendSettingEventMessage(platform: string, callback: Option<string>) returns (sent: bool)
      modifies this`screens
      ensures sent == IsSettingEventCallback(k, callback)
      ensures screens == old(screens)
        + if sent then [EventsScreen(platform, EventLayout(k, ConfigOf(eventConfigs, platform), None, platform))] else []
    {
      if callback == Some(k.githubEvents) || callback == Some(k.gitlabEvents) || !TruthyOpt(callback) {
        var markup := EventMarkup(k, ConfigOf(eventConfigs, platform), None, platform);
        screens := screens + [EventsScreen(platform, markup)];
        return true;
      }
      return false;
    }

    /** Shows the action list of an event when the stripped callback carries the has-action separator. */
    method HandleEventWithActions(event: string, platform: string) returns (shown: bool)
      requires k.Markers()
      modifies this`screens
      ensures shown == Contains(event, k.hasActionSeparator)
      ensures screens == old(screens)
        + if shown then Render(k, eventConfigs, ShowActions(platform, Remove(event, k.hasActionSeparator))) else []
    {
      if Contains(event, k.hasActionSeparator) {
        var parent := Remove(event, k.hasActionSeparator);
        var markup := EventMarkup(k, ConfigOf(eventConfigs, platform), Some(parent), platform);
        screens := screens + [ActionsScreen(parent, platform, markup)];
        return true;
      }
      return false;
    }

    /** Toggles when the stripped callback carries the update separator; otherwise does nothing. */
    method HandleEventUpdate(event: string, platform: string)
      requires k.Ends()
      modifies this
      decreases if Contains(event, k.updateSeparator) then 1 else 0, 2
      ensures if Contains(event, k.updateSeparator) then
          var path := Remove(event, k.updateSeparator);
          && eventConfigs == ToggleConfigs(old(eventConfigs), platform, path)
          && screens == old(screens) + Render(k, eventConfigs, Decide(k, ReRenderCallback(k, platform, path), Some(platform)))
        else eventConfigs == old(eventConfigs) && screens == old(screens)
    {
      if Contains(event, k.updateSeparator) {
        var path := Remove(event, k.updateSeparator);
        EventUpdateHandle(path, platform);
      }
    }

    /**
     * Toggles the event, or the action under it, named by a dotted path in
     * the platform's catalog, then shows the list the toggled entry is in.
     */
    method EventUpdateHandle(path: string, platform: string)
      requires k.Ends()
      modifies this
      decreases 1, 1
      ensures eventConfigs == ToggleConfigs(old(eventConfigs), platform, path)
      ensures screens == old(screens) + Render(k, eventConfigs, Decide(k, ReRenderCallback(k, platform, path), Some(platform)))
    {
      var parts := Explode(path);
      var event := parts[0];
      var action: Option<string> := if |parts| >= 2 then Some(parts[1]) else None;
      if platform in eventConfigs {
        var keys := if TruthyOpt(action) then [event, action.value] else [event];
        eventConfigs := eventConfigs[platform := Update(eventConfigs[platform], keys, None)];
      }
      var next := if TruthyOpt(action) then Some(SeparatorOf(k, platform) + k.hasActionSeparator + event) else None;
      ReRenderNeverToggles(k, platform, path);
      EventHandle(next, Some(platform));
    }
  }

  // ------------------------------------------------------------ lemmas

  /** Removing a marker that x is not, where x shares no character with it. */
  lemma RemoveAroundOther(x: string, a: string, e: string, p: string)
    requires p != [] && NoShared(a, p) && NoShared(x, p)
    ensures Remove(x + a + e, p) == x + a + Remove(e, p)
  {
    assert x + a + e == x + (a + e);
    RemoveSkip(x, a + e, p);
    RemoveSkip(a, e, p);
  }

  /** Removing a marker that x is. */
  lemma RemoveAroundSame(a: string, e: string, p: string)
    requires p != [] && NoShared(a, p)
    ensures Remove(p + a + e, p) == a + Remove(e, p)
  {
    assert p + a + e == p + (a + e);
    RemoveLead(p, a + e);
    RemoveSkip(a, e, p);
  }

  /** Stripping a re-render callback keeps its has-action separator in front of the stripped event. */
  lemma StripReRender(k: Protocol, platform: string, e: string)
    requires k.Ends()
    ensures GetEventFromCallback(k, Some(SeparatorOf(k, platform) + k.hasActionSeparator + e))
         == k.hasActionSeparator + GetEventFromCallback(k, Some(e))
  {
    var act := k.hasActionSeparator;
    var e1 := Remove(e, k.prefix);
    var e2 := Remove(e1, k.githubSeparator);
    var e3 := Remove(e2, k.gitlabSeparator);
    if platform == GithubPlatform {
      var sep := k.githubSeparator;
      RemoveAroundOther(sep, act, e, k.prefix);
      RemoveAroundSame(act, e1, sep);
      RemoveSkip(act, e2, k.gitlabSeparator);
    } else if platform == GitlabPlatform {
      var sep := k.gitlabSeparator;
      RemoveAroundOther(sep, act, e, k.prefix);
      RemoveAroundOther(sep, act, e1, k.githubSeparator);
      RemoveAroundSame(act, e2, sep);
    } else {
      assert SeparatorOf(k, platform) + act + e == act + e;
      RemoveSkip(act, e, k.prefix);
      RemoveSkip(act, e1, k.githubSeparator);
      RemoveSkip(act, e2, k.gitlabSeparator);
    }
  }

  /** The callback a toggle re-renders through never toggles again. */
  lemma ReRenderNeverToggles(k: Protocol, platform: string, path: string)
    requires k.Ends()
    ensures Rank(k, ReRenderCallback(k, platform, path), Some(platform)) == 0
  {
    var cb := ReRenderCallback(k, platform, path);
    if !IsSettingEventCallback(k, cb) {
      var parts := Explode(path);
      StripReRender(k, platform, parts[0]);
      var rest := GetEventFromCallback(k, Some(parts[0]));
      assert k.hasActionSeparator <= k.hasActionSeparator + rest;
    }
  }

  /** An encoded callback is never one of the event-list callbacks. */
  lemma EncodedIsNotSettingEvent(k: Protocol, event: string, platform: string, value: Node, parent: Option<string>)
    requires k.Disjoint()
    ensures !IsSettingEventCallback(k, Some(GetCallbackData(k, event, platform, value, parent)))
  {
    var cb := GetCallbackData(k, event, platform, value, parent);
    var head := k.prefix + PlatformSeparator(k, platform);
    assert k.prefix <= head;
    assert |cb| >= |head| >= 2;
  }

  /** Round trip: the button of an event with actions opens that event's action list. */
  lemma GroupRoundTrip(k: Protocol, event: string, platform: string, children: seq<Entry>, parent: Option<string>)
    requires k.WellFormed() && k.IsName(event)
    requires TruthyOpt(parent) ==> k.IsName(parent.value)
    requires platform == GithubPlatform || platform == GitlabPlatform
    ensures Decide(k, Some(GetCallbackData(k, event, platform, Group(children), parent)), None)
         == ShowActions(platform, event)
  {
    var value := Group(children);
    EncodedIsNotSettingEvent(k, event, platform, value, parent);
    PlatformRoundTrip(k, event, platform, value, parent);
    CallbackShape(k, event, platform, value, parent);
    BodyIsClean(k, event, value, parent);
    StripRoundTrip(k, platform, k.hasActionSeparator + event);
    assert k.hasActionSeparator <= k.hasActionSeparator + event;
    RemoveLead(k.hasActionSeparator, event);
    RemoveUntouched(event, k.hasActionSeparator);
  }

  /** The body of a toggle callback: its path followed by the update separator. */
  lemma LeafDecides(k: Protocol, event: string, platform: string, b: bool, parent: Option<string>, path: string)
    requires k.WellFormed() && k.IsName(event)
    requires TruthyOpt(parent) ==> k.IsName(parent.value)
    requires platform == GithubPlatform || platform == GitlabPlatform
    requires path == if TruthyOpt(parent) then parent.value + "." + event else event
    ensures Decide(k, Some(GetCallbackData(k, event, platform, Leaf(b), parent)), None) == Toggle(platform, path)
  {
    var value := Leaf(b);
    EncodedIsNotSettingEvent(k, event, platform, value, parent);
    PlatformRoundTrip(k, event, platform, value, parent);
    CallbackShape(k, event, platform, value, parent);
    BodyIsClean(k, event, value, parent);
    var body := path + k.updateSeparator;
    assert EncodedBody(k, event, value, parent) == body;
    StripRoundTrip(k, platform, body);
    NotContains(body, k.hasActionSeparator);
    ContainsTrailing(path, k.updateSeparator);
    RemoveTrailing(path, k.updateSeparator);
  }

  /**
   * Round trip: the button of an event without a parent toggles exactly
   * that event and shows the event list again.
   */
  lemma EventRoundTrip(k: Protocol, event: string, platform: string, b: bool, parent: Option<string>)
    requires k.WellFormed() && k.IsName(event) && !TruthyOpt(parent)
    requires platform == GithubPlatform || platform == GitlabPlatform
    ensures var step := Decide(k, Some(GetCallbackData(k, event, platform, Leaf(b), parent)), None);
      && step == Toggle(platform, event)
      && TogglePath(step.path) == [event]
      && Decide(k, ReRenderCallback(k, platform, step.path), Some(platform)) == ShowEvents(platform)
  {
    LeafDecides(k, event, platform, b, parent, event);
    ExplodeNoDot(event);
  }

  /**
   * Round trip: the button of an action under a parent event toggles
   * exactly that action and shows the parent's action list again.
   */
  lemma ActionRoundTrip(k: Protocol, event: string, platform: string, b: bool, parent: string)
    requires k.WellFormed() && k.IsName(event) && k.IsName(parent)
    requires Truthy(parent) && Truthy(event)
    requires platform == GithubPlatform || platform == GitlabPlatform
    ensures var step := Decide(k, Some(GetCallbackData(k, event, platform, Leaf(b), Some(parent))), None);
      && step == Toggle(platform, parent + "." + event)
      && TogglePath(step.path) == [parent, event]
      && Decide(k, ReRenderCallback(k, platform, step.path), Some(platform)) == ShowActions(platform, parent)
  {
    LeafDecides(k, event, platform, b, Some(parent), parent + "." + event);
    ExplodePair(parent, event);
    assert ReRenderCallback(k, platform, parent + "." + event)
        == Some(SeparatorOf(k, platform) + k.hasActionSeparator + parent);
    ActionsReRender(k, platform, parent);
  }

  /** The re-render callback of an action list decides to show that list again. */
  lemma ActionsReRender(k: Protocol, platform: string, parent: string)
    requires k.Disjoint() && k.IsName(parent)
    requires platform == GithubPlatform || platform == GitlabPlatform
    ensures Decide(k, Some(SeparatorOf(k, platform) + k.hasActionSeparator + parent), Some(platform))
         == ShowActions(platform, parent)
  {
    var sep := SeparatorOf(k, platform);
    var act := k.hasActionSeparator;
    var cb := Some(sep + act + parent);
    // the re-render callback is none of the event-list callbacks
    assert act[0] in sep + act + parent;
    assert |sep + act + parent| >= 2;
    // stripping it leaves the has-action separator and the parent
    StripReRender(k, platform, parent);
    RemoveUntouched(parent, k.prefix);
    RemoveUntouched(parent, k.githubSeparator);
    RemoveUntouched(parent, k.gitlabSeparator);
    assert GetEventFromCallback(k, cb) == act + parent;
    assert act <= act + parent;
    RemoveLead(act, parent);
    RemoveUntouched(parent, act);
  }

  /** A null or event-list callback opens the event list of the explicit platform. */
  lemma EventListCallbacks(k: Protocol, callback: Option<string>, platform: string)
    requires k.Markers() && Truthy(platform) && IsSettingEventCallback(k, callback)
    ensures Decide(k, callback, Some(platform)) == ShowEvents(platform)
  {
  }

  /** Distinct, non-empty markers that share characters: the has-action separator holds the github separator and the update separator. */
  function OverlappingProtocol(): Protocol {
    Protocol("P", "G", "L", "G.xa", "x", "E1", "E2", "b1", "b2", "b3", "n", "a", "s")
  }

  /** The button of the event ".a" is "PG.ax". */
  lemma OverlapButton(b: bool)
    ensures GetCallbackData(OverlappingProtocol(), ".a", GithubPlatform, Leaf(b), None) == "PG.ax"
  {
    assert "P" + "G" + ".a" + "x" == "PG.ax";
  }

  /** Removing a leading marker and then the marker's absence: Remove(p + s, p) == s. */
  lemma RemoveOnce(p: string, s: string)
    requires p != [] && NoShared(s, p)
    ensures Remove(p + s, p) == s
  {
    RemoveLead(p, s);
    RemoveUntouched(s, p);
  }

  /** "PG.ax" strips to ".ax". */
  lemma OverlapStripsButton()
    ensures GetEventFromCallback(OverlappingProtocol(), Some("PG.ax")) == ".ax"
  {
    assert "PG.ax" == "P" + "G.ax";
    RemoveOnce("P", "G.ax");
    assert "G.ax" == "G" + ".ax";
    RemoveOnce("G", ".ax");
    RemoveUntouched(".ax", "L");
  }

  /** The re-render callback of the toggle ".a" is "GG.xa". */
  lemma OverlapReRender()
    ensures ReRenderCallback(OverlappingProtocol(), GithubPlatform, ".a") == Some("GG.xa")
  {
    assert Explode(".a") == ["", "a"] by {
      ExplodePair("", "a");
      assert "" + "." + "a" == ".a";
    }
    assert "G" + "G.xa" + "" == "GG.xa";
  }

  /** "GG.xa" strips to ".xa". */
  lemma OverlapStripsReRender()
    ensures GetEventFromCallback(OverlappingProtocol(), Some("GG.xa")) == ".xa"
  {
    RemoveUntouched("GG.xa", "P");
    assert "GG.xa" == "G" + ("G" + ".xa");
    RemoveLead("G", "G" + ".xa");
    RemoveOnce("G", ".xa");
    RemoveUntouched(".xa", "L");
  }

  /** Both stripped callbacks lack the has-action separator and toggle ".a". */
  lemma OverlapToggles(e: string)
    requires e == ".ax" || e == ".xa"
    ensures !Contains(e, "G.xa") && Contains(e, "x") && Remove(e, "x") == ".a"
  {
    ShortNotContains(e, "G.xa");
    if e == ".ax" {
      assert e == ".a" + "x";
      ContainsTrailing(".a", "x");
      RemoveTrailing(".a", "x");
    } else {
      assert e == "." + "xa";
      ContainsSkip(".", "xa", "x");
      assert "x" <= "xa";
      RemoveSkip(".", "xa", "x");
      assert "xa" == "x" + "a";
      RemoveLead("x", "a");
      RemoveUntouched("a", "x");
    }
  }

  /** The markers are non-empty but the codec's needs are not met: "G" occurs in "G.xa". */
  lemma OverlapNotEnds()
    ensures OverlappingProtocol().Markers() && !OverlappingProtocol().Ends()
  {
    var k := OverlappingProtocol();
    assert 'G' in k.githubSeparator && 'G' in k.hasActionSeparator;
  }

  /** The button of the event ".a" decides the toggle ".a" on github. */
  lemma OverlapButtonToggles(b: bool)
    ensures Decide(OverlappingProtocol(), Some(GetCallbackData(OverlappingProtocol(), ".a", GithubPlatform, Leaf(b), None)), None)
         == Toggle(GithubPlatform, ".a")
  {
    var k := OverlappingProtocol();
    OverlapButton(b);
    OverlapStripsButton();
    OverlapToggles(".ax");
    var button := "PG.ax";
    assert button == "P" + "G.ax";
    ContainsSkip("P", "G.ax", "G");
    assert "G" <= "G.ax";
    assert GetPlatformFromCallback(k, Some(button), None) == GithubPlatform;
    assert button != k.githubEvents && button != k.gitlabEvents;
  }

  /** The re-render callback of the toggle ".a" decides the toggle ".a" again. */
  lemma OverlapReRenderToggles()
    ensures Decide(OverlappingProtocol(), ReRenderCallback(OverlappingProtocol(), GithubPlatform, ".a"), Some(GithubPlatform))
         == Toggle(GithubPlatform, ".a")
  {
    var k := OverlappingProtocol();
    OverlapReRender();
    OverlapStripsReRender();
    OverlapToggles(".xa");
    var cb := "GG.xa";
    assert cb != k.githubEvents && cb != k.gitlabEvents;
  }

  /**
   * With markers that are non-empty and distinct but share characters, the
   * button of an event ".a" toggles ".a", and the callback the toggle
   * re-renders through decides the very same toggle again, so the handler
   * chain would not come to an end.
   */
  lemma OverlappingMarkersLoop(b: bool)
    ensures var k := OverlappingProtocol();
      && k.Markers() && !k.Ends()
      && Decide(k, Some(GetCallbackData(k, ".a", GithubPlatform, Leaf(b), None)), None) == Toggle(GithubPlatform, ".a")
      && Decide(k, ReRenderCallback(k, GithubPlatform, ".a"), Some(GithubPlatform)) == Toggle(GithubPlatform, ".a")
  {
    OverlapNotEnds();
    OverlapButtonToggles(b);
    OverlapReRenderToggles();
  }
}

=== FILE: settings.dfy ===
/**
 * The persisted settings object: the decoded settings document kept in
 * memory, and the settings file, seen as whether it exists and the
 * document it last received.
 */
module Settings {
  import opened Wrappers
  import opened Strings
  import opened Tree

  /** Top-level key of the "send notifications at all" flag. */
  const IsNotifiedKey: string := "is_notified"
  /** Top-level key of the "notify about every event" flag. */
  const AllEventsKey: string := "all_events_notify"

  /**
   * A top-level flag is on only when the document is non-empty and the key
   * holds exactly the boolean true (a strict comparison with true).
   */
  function FlagOn(d: seq<Entry>, key: string): (r: bool)
    ensures r <==> Lookup(d, [key]) == Some(Leaf(true))
    ensures d == [] ==> !r
  {
    d != [] && Find(d, key) == Some(Leaf(true))
  }

  /** Setting a flag that exists to b makes it read b; toggling it reads the negation. */
  lemma FlagAfterUpdate(d: seq<Entry>, key: string, value: Option<bool>, b: bool)
    requires Find(d, key) == Some(Leaf(b))
    ensures FlagOn(Update(d, [key], value), key) == NewValue(Leaf(b), value)
    ensures value.None? ==> FlagOn(Update(d, [key], value), key) == !b
  {
    UpdateHit(d, [key], value);
  }

  /** A missing flag reads false and cannot be switched on by an update. */
  lemma FlagMissing(d: seq<Entry>, key: string, value: Option<bool>)
    requires Find(d, key) == None
    ensures !FlagOn(d, key) && !FlagOn(Update(d, [key], value), key)
  {
    UpdateMissing(d, [key], value);
  }

  class Setting {
    /** The decoded settings document. */
    var settings: seq<Entry>
    /** Whether the settings file exists. */
    var fileExists: bool
    /** The document the settings file holds. */
    var persisted: seq<Entry>

    /** A setting whose document was loaded from its file. */
    constructor (loaded: seq<Entry>, fileFound: bool)
      ensures settings == loaded && persisted == loaded && fileExists == fileFound
    {
      settings := loaded;
      persisted := loaded;
      fileExists := fileFound;
    }

    /** True only when the document is non-empty and "notify about every event" is true. */
    function IsAllEventsNotification(): (r: bool)
      reads this
      ensures r <==> settings != [] && Lookup(settings, [AllEventsKey]) == Some(Leaf(true))
    {
      FlagOn(settings, AllEventsKey)
    }

    /** True only when the document is non-empty and "send notifications" is true. */
    function IsNotified(): (r: bool)
      reads this
      ensures r <==> settings != [] && Lookup(settings, [IsNotifiedKey]) == Some(Leaf(true))
    {
      FlagOn(settings, IsNotifiedKey)
    }

    /**
     * Writes the document to the settings file when that file exists;
     * reports whether it did. A missing file is not created.
     */
    method SaveSettingsToFile() returns (ok: bool)
      modifies this`persisted
      ensures ok == fileExists
      ensures persisted == if fileExists then settings else old(persisted)
    {
      if fileExists {
        persisted := settings;
        ok := true;
      } else {
        ok := false;
      }
    }

    /**
     * Overwrites (or, with no value, negates) the setting named by a dotted
     * path, then saves. Every step before the last key must be a nested map
     * and the last key must be set, else nothing changes and the result is
     * false. A successful write stays in memory even when the file is
     * missing, in which case the result is false as well.
     */
    method UpdateSettingItem(settingName: string, settingValue: Option<bool>) returns (ok: bool)
      modifies this`settings, this`persisted
      ensures var path := Explode(settingName);
        && settings == Update(old(settings), path, settingValue)
        && ok == (Lookup(old(settings), path).Some? && fileExists)
        && persisted == if ok then settings else old(persisted)
    {
      var settingKeys := Explode(settingName);
      var lastKey := settingKeys[|settingKeys| - 1];
      var walk := settingKeys[..|settingKeys| - 1];
      LookupViaDescend(settings, settingKeys);
      var nested := settings;
      var i := 0;
      while i < |walk|
        invariant 0 <= i <= |walk|
        invariant settings == old(settings) && persisted == old(persisted)
        invariant Descend(settings, walk[..i]) == Some(nested)
      {
        var key := walk[i];
        DescendSnoc(settings, walk[..i], key);
        assert walk[..i + 1] == walk[..i] + [key];
        match Find(nested, key)
        case Some(Group(c)) =>
          nested := c;
          i := i + 1;
        case _ =>
          DescendAppend(settings, walk[..i + 1], walk[i + 1..]);
          assert walk[..i + 1] + walk[i + 1..] == walk;
          assert Descend(settings, walk) == None;
          return false;
      }
      assert walk[..i] == walk;
      match Find(nested, lastKey)
      case None =>
        return false;
      case Some(current) =>
        settings := Store(settings, settingKeys, Leaf(NewValue(current, settingValue)));
        ok := SaveSettingsToFile();
    }
  }
}

=== FILE: strings.dfy ===
/**
 * The PHP string primitives the settings code relies on: truthiness of a
 * string, `str_contains`, `str_replace` with an empty replacement, and
 * `explode('.', ...)` together with its inverse `implode('.', ...)`.
 */
module Strings {
  import opened Wrappers

  /** PHP truthiness of a string: only "" and "0" are false. */
  predicate Truthy(s: string) {
    s != "" && s != "0"
  }

  /** Truthiness of a nullable string: null is false. */
  predicate TruthyOpt(s: Option<string>) {
    s.Some? && Truthy(s.value)
  }

  /** The string a nullable string parameter is coerced to (null becomes ""). */
  function OrEmpty(s: Option<string>): string {
    if s.Some? then s.value else ""
  }

  /** `str_contains(s, p)`: p occurs somewhere in s. */
  predicate Contains(s: string, p: string)
    decreases |s|
  {
    p <= s || (s != [] && Contains(s[1..], p))
  }

  /**
   * `str_replace(p, '', s)`: deletes the non-overlapping occurrences of p,
   * scanning from left to right.
   */
  function Remove(s: string, p: string): string
    requires p != []
    decreases |s|
  {
    if s == [] then []
    else if p <= s then Remove(s[|p|..], p)
    else [s[0]] + Remove(s[1..], p)
  }

  /** No character of s occurs in p. */
  predicate NoShared(s: string, p: string) {
    forall c :: c in s ==> c !in p
  }

  /** s and p have no character in common. */
  predicate Apart(s: string, p: string) {
    NoShared(s, p) && NoShared(p, s)
  }

  /** A text that shares no character with p passes through the removal of p untouched. */
  lemma {:induction false} RemoveSkip(n: string, b: string, p: string)
    requires p != [] && NoShared(n, p)
    ensures Remove(n + b, p) == n + Remove(b, p)
    decreases |n|
  {
    if n == [] {
      assert n + b == b;
    } else {
      assert (n + b)[0] == n[0];
      assert n[0] in n;
      assert !(p <= n + b);
      assert (n + b)[1..] == n[1..] + b;
      RemoveSkip(n[1..], b, p);
    }
  }

  /** An occurrence of p at the very front is deleted. */
  lemma RemoveLead(p: string, s: string)
    requires p != []
    ensures Remove(p + s, p) == Remove(s, p)
  {
    assert p <= p + s;
    assert (p + s)[|p|..] == s;
  }

  /** Removing p from a text without any of p's characters changes nothing. */
  lemma RemoveUntouched(s: string, p: string)
    requires p != [] && NoShared(s, p)
    ensures Remove(s, p) == s
  {
    RemoveSkip(s, [], p);
    assert s + [] == s;
  }

  /** Removing p from a text that ends in p drops that trailing p. */
  lemma RemoveTrailing(n: string, p: string)
    requires p != [] && NoShared(n, p)
    ensures Remove(n + p, p) == n
  {
    RemoveSkip(n, p, p);
    RemoveLead(p, []);
    assert p + [] == p;
  }

  /** A prefix sharing no character with p cannot host an occurrence of p. */
  lemma {:induction false} ContainsSkip(n: string, b: string, p: string)
    requires p != [] && NoShared(n, p)
    ensures Contains(n + b, p) == Contains(b, p)
    decreases |n|
  {
    if n == [] {
      assert n + b == b;
    } else {
      assert (n + b)[0] == n[0] && n[0] in n;
      assert !(p <= n + b);
      assert (n + b)[1..] == n[1..] + b;
      ContainsSkip(n[1..], b, p);
    }
  }

  /** A text sharing no character with a non-empty p does not contain p. */
  lemma NotContains(s: string, p: string)
    requires p != [] && NoShared(s, p)
    ensures !Contains(s, p)
  {
    ContainsSkip(s, [], p);
    assert s + [] == s;
  }

  /** A pattern longer than the string does not occur in it. */
  lemma {:induction false} ShortNotContains(s: string, p: string)
    requires |s| < |p|
    ensures !Contains(s, p)
    decreases |s|
  {
    if s != [] {
      ShortNotContains(s[1..], p);
    }
  }

  /** Every text that ends in p contains p. */
  lemma {:induction false} ContainsTrailing(x: string, p: string)
    ensures Contains(x + p, p)
    decreases |x|
  {
    if x == [] {
      assert x + p == p;
    } else {
      assert (x + p)[1..] == x[1..] + p;
      ContainsTrailing(x[1..], p);
    }
  }

  /** `explode('.', s)`: the pieces of s between the dots; never empty. */
  function Explode(s: string): (r: seq<string>)
    ensures |r| >= 1
    decreases |s|
  {
    if s == [] then [[]]
    else
      var t := Explode(s[1..]);
      if s[0] == '.' then [[]] + t else [[s[0]] + t[0]] + t[1..]
  }

  /** `implode('.', parts)`: the pieces joined with dots. */
  function Implode(parts: seq<string>): string
    requires |parts| >= 1
  {
    if |parts| == 1 then parts[0] else parts[0] + "." + Implode(parts[1..])
  }

  /** Splitting on dots loses nothing and leaves no dot inside a piece. */
  lemma {:induction false} ExplodeImplode(s: string)
    ensures Implode(Explode(s)) == s
    ensures forall i :: 0 <= i < |Explode(s)| ==> '.' !in Explode(s)[i]
    decreases |s|
  {
    if s != [] {
      ExplodeImplode(s[1..]);
      var t := Explode(s[1..]);
      if s[0] == '.' {
        assert Explode(s)[1..] == t;
        assert s == [] + "." + s[1..];
      } else {
        var r := Explode(s);
        assert r[0] == [s[0]] + t[0];
        if |t| == 1 {
          assert s == [s[0]] + t[0];
        } else {
          assert r[1..] == t[1..];
          assert Implode(t) == t[0] + "." + Implode(t[1..]);
          assert s == r[0] + "." + Implode(r[1..]);
        }
        forall i | 0 <= i < |r| ensures '.' !in r[i] {
          if i > 0 { assert r[i] == t[i]; }
        }
      }
    }
  }

  /** A dot-free string explodes into itself. */
  lemma {:induction false} ExplodeNoDot(a: string)
    requires '.' !in a
    ensures Explode(a) == [a]
    decreases |a|
  {
    if a != [] {
      ExplodeNoDot(a[1..]);
      assert a[0] != '.';
      assert [a[0]] + a[1..] == a;
    }
  }

  /** A dot-free head followed by a dot is split off as the first piece. */
  lemma {:induction false} ExplodeCons(a: string, rest: string)
    requires '.' !in a
    ensures Explode(a + "." + rest) == [a] + Explode(rest)
    decreases |a|
  {
    var s := a + "." + rest;
    if a == [] {
      assert s[1..] == rest;
    } else {
      assert s[0] == a[0] && a[0] != '.';
      assert s[1..] == a[1..] + "." + rest;
      ExplodeCons(a[1..], rest);
      assert [a[0]] + a[1..] == a;
    }
  }

  /** `explode('.', a . '.' . b)` is `[a, b]` when neither part holds a dot. */
  lemma ExplodePair(a: string, b: string)
    requires '.' !in a && '.' !in b
    ensures Explode(a + "." + b) == [a, b]
  {
    ExplodeCons(a, b);
    ExplodeNoDot(b);
  }
}

=== FILE: tree.dfy ===
/**
 * The nested settings document: a PHP array decoded from JSON whose
 * leaves are booleans. Entries keep their order, because the event menu
 * lists them in the order the document holds them.
 */
module Tree {
  import opened Wrappers

  datatype Node = Leaf(on: bool) | Group(children: seq<Entry>)
  datatype Entry = Entry(key: string, node: Node)

  /** The value stored under key k (the first entry with that key), if the key is set. */
  function Find(d: seq<Entry>, k: string): Option<Node> {
    if d == [] then None
    else if d[0].key == k then Some(d[0].node)
    else Find(d[1..], k)
  }

  /** Overwrites the value under key k when the key is set; never adds an entry. */
  function SetFirst(d: seq<Entry>, k: string, v: Node): (r: seq<Entry>)
    ensures |r| == |d|
    ensures forall i :: 0 <= i < |d| ==> r[i].key == d[i].key
  {
    if d == [] then []
    else if d[0].key == k then [Entry(k, v)] + d[1..]
    else [d[0]] + SetFirst(d[1..], k, v)
  }

  /** The value at a path of keys: every step but the last must be a nested map. */
  function Lookup(d: seq<Entry>, path: seq<string>): Option<Node>
    requires path != []
    decreases |path|
  {
    var n := Find(d, path[0]);
    if |path| == 1 then n
    else match n
      case Some(Group(c)) => Lookup(c, path[1..])
      case _ => None
  }

  /** The nested map reached by walking the keys of `walk`, if every step is a nested map. */
  function Descend(d: seq<Entry>, walk: seq<string>): Option<seq<Entry>>
    decreases |walk|
  {
    if walk == [] then Some(d)
    else match Find(d, walk[0])
      case Some(Group(c)) => Descend(c, walk[1..])
      case _ => None
  }

  /** Writes v at an existing path; a path that does not resolve leaves d as it is. */
  function Store(d: seq<Entry>, path: seq<string>, v: Node): seq<Entry>
    requires path != []
    decreases |path|
  {
    if |path| == 1 then SetFirst(d, path[0], v)
    else match Find(d, path[0])
      case Some(Group(c)) => SetFirst(d, path[0], Group(Store(c, path[1..], v)))
      case _ => d
  }

  /**
   * The value an update writes: the explicit value when one is given, else
   * the PHP negation of the current value (a nested map negates to true
   * only when it is empty).
   */
  function NewValue(current: Node, value: Option<bool>): bool {
    if value.Some? then value.value
    else match current
      case Leaf(b) => !b
      case Group(c) => c == []
  }

  /** The update of one setting: overwrite or toggle an existing key, else nothing. */
  function Update(d: seq<Entry>, path: seq<string>, value: Option<bool>): seq<Entry>
    requires path != []
  {
    match Lookup(d, path)
    case None => d
    case Some(n) => Store(d, path, Leaf(NewValue(n, value)))
  }

  /** Two paths that part ways at some position (neither is a prefix of the other). */
  predicate Diverge(p: seq<string>, q: seq<string>)
    decreases |p|
  {
    p != [] && q != [] && (p[0] != q[0] || Diverge(p[1..], q[1..]))
  }

  // ---------------------------------------------------------------- one level

  lemma {:induction false} FindSetFirst(d: seq<Entry>, k: string, v: Node, j: string)
    ensures Find(SetFirst(d, k, v), j) == if j == k && Find(d, k).Some? then Some(v) else Find(d, j)
    decreases |d|
  {
    if d != [] && d[0].key != k {
      FindSetFirst(d[1..], k, v, j);
      assert ([d[0]] + SetFirst(d[1..], k, v))[1..] == SetFirst(d[1..], k, v);
    } else if d != [] {
      assert ([Entry(k, v)] + d[1..])[1..] == d[1..];
    }
  }

  lemma {:induction false} SetFirstTwice(d: seq<Entry>, k: string, v: Node, w: Node)
    ensures SetFirst(SetFirst(d, k, v), k, w) == SetFirst(d, k, w)
    decreases |d|
  {
    if d != [] && d[0].key != k {
      SetFirstTwice(d[1..], k, v, w);
      assert ([d[0]] + SetFirst(d[1..], k, v))[1..] == SetFirst(d[1..], k, v);
    } else if d != [] {
      assert ([Entry(k, v)] + d[1..])[1..] == d[1..];
    }
  }

  lemma {:induction false} SetFirstSame(d: seq<Entry>, k: string, v: Node)
    requires Find(d, k) == Some(v)
    ensures SetFirst(d, k, v) == d
    decreases |d|
  {
    if d[0].key != k {
      SetFirstSame(d[1..], k, v);
    }
  }

  lemma {:induction false} SetFirstMissing(d: seq<Entry>, k: string, v: Node)
    requires Find(d, k) == None
    ensures SetFirst(d, k, v) == d
    decreases |d|
  {
    if d != [] {
      SetFirstMissing(d[1..], k, v);
    }
  }

  // ---------------------------------------------------------------- paths

  /** The last key of a path is looked up in the map that the other keys lead to. */
  lemma {:induction false} LookupViaDescend(d: seq<Entry>, path: seq<string>)
    requires path != []
    ensures Lookup(d, path) == match Descend(d, path[..|path| - 1])
      case Some(c) => Find(c, path[|path| - 1])
      case None => None
    decreases |path|
  {
    if |path| > 1 {
      assert path[..|path| - 1][0] == path[0];
      assert path[..|path| - 1][1..] == path[1..][..|path[1..]| - 1];
      match Find(d, path[0])
      case Some(Group(c)) => LookupViaDescend(c, path[1..]);
      case _ =>
    }
  }

  /** Walking one key further goes one nested map deeper, or fails. */
  lemma {:induction false} DescendSnoc(d: seq<Entry>, walk: seq<string>, k: string)
    ensures Descend(d, walk + [k]) == match Descend(d, walk)
      case Some(c) => (match Find(c, k) case Some(Group(g)) => Some(g) case _ => None)
      case None => None
    decreases |walk|
  {
    if walk == [] {
      assert ([] + [k])[1..] == [];
    } else {
      assert (walk + [k])[0] == walk[0];
      assert (walk + [k])[1..] == walk[1..] + [k];
      match Find(d, walk[0])
      case Some(Group(c)) => DescendSnoc(c, walk[1..], k);
      case _ =>
    }
  }

  /** Walking a concatenation of two walks is walking the first, then the second. */
  lemma {:induction false} DescendAppend(d: seq<Entry>, a: seq<string>, b: seq<string>)
    ensures Descend(d, a + b) == match Descend(d, a)
      case Some(c) => Descend(c, b)
      case None => None
    decreases |a|
  {
    if a == [] {
      assert a + b == b;
    } else {
      assert (a + b)[0] == a[0];
      assert (a + b)[1..] == a[1..] + b;
      match Find(d, a[0])
      case Some(Group(c)) => DescendAppend(c, a[1..], b);
      case _ =>
    }
  }

  /** A path that does not resolve is never written: no partial write. */
  lemma {:induction false} StoreMissing(d: seq<Entry>, path: seq<string>, v: Node)
    requires path != [] && Lookup(d, path) == None
    ensures Store(d, path, v) == d
    decreases |path|
  {
    if |path| == 1 {
      SetFirstMissing(d, path[0], v);
    } else {
      match Find(d, path[0])
      case Some(Group(c)) =>
        StoreMissing(c, path[1..], v);
        SetFirstSame(d, path[0], Group(c));
      case _ =>
    }
  }

  /** After writing an existing path, the path holds the written value. */
  lemma {:induction false} StoreHit(d: seq<Entry>, path: seq<string>, v: Node)
    requires path != [] && Lookup(d, path).Some?
    ensures Lookup(Store(d, path, v), path) == Some(v)
    decreases |path|
  {
    FindSetFirst(d, path[0], v, path[0]);
    if |path| > 1 {
      var c := Find(d, path[0]).value.children;
      StoreHit(c, path[1..], v);
      FindSetFirst(d, path[0], Group(Store(c, path[1..], v)), path[0]);
    }
  }

  /** Writing a path leaves every path that parts ways with it untouched. */
  lemma {:induction false} StoreElsewhere(d: seq<Entry>, path: seq<string>, v: Node, q: seq<string>)
    requires path != [] && Diverge(path, q)
    ensures Lookup(Store(d, path, v), q) == Lookup(d, q)
    decreases |path|
  {
    var k := path[0];
    if |path| == 1 {
      FindSetFirst(d, k, v, q[0]);
    } else {
      match Find(d, k)
      case Some(Group(c)) =>
        var c' := Store(c, path[1..], v);
        FindSetFirst(d, k, Group(c'), q[0]);
        if q[0] == k {
          StoreElsewhere(c, path[1..], v, q[1..]);
        }
      case _ =>
    }
  }

  /** Writing a boolean leaf creates no path that was not there before. */
  lemma {:induction false} StoreNoNewPaths(d: seq<Entry>, path: seq<string>, b: bool, q: seq<string>)
    requires path != [] && q != []
    requires Lookup(Store(d, path, Leaf(b)), q).Some?
    ensures Lookup(d, q).Some?
    decreases |path|
  {
    var k := path[0];
    if |path| == 1 {
      FindSetFirst(d, k, Leaf(b), q[0]);
    } else {
      match Find(d, k)
      case Some(Group(c)) =>
        var c' := Store(c, path[1..], Leaf(b));
        FindSetFirst(d, k, Group(c'), q[0]);
        if q[0] == k && |q| > 1 {
          StoreNoNewPaths(c, path[1..], b, q[1..]);
        }
      case _ =>
    }
  }

  /** The second of two writes to the same path wins. */
  lemma {:induction false} StoreTwice(d: seq<Entry>, path: seq<string>, v: Node, w: Node)
    requires path != []
    ensures Store(Store(d, path, v), path, w) == Store(d, path, w)
    decreases |path|
  {
    var k := path[0];
    if |path| == 1 {
      SetFirstTwice(d, k, v, w);
    } else {
      match Find(d, k)
      case Some(Group(c)) =>
        var c1 := Store(c, path[1..], v);
        FindSetFirst(d, k, Group(c1), k);
        StoreTwice(c, path[1..], v, w);
        SetFirstTwice(d, k, Group(c1), Group(Store(c1, path[1..], w)));
      case _ =>
    }
  }

  /** Writing the value a path already holds changes nothing. */
  lemma {:induction false} StoreSame(d: seq<Entry>, path: seq<string>, v: Node)
    requires path != [] && Lookup(d, path) == Some(v)
    ensures Store(d, path, v) == d
    decreases |path|
  {
    if |path| == 1 {
      SetFirstSame(d, path[0], v);
    } else {
      var c := Find(d, path[0]).value.children;
      StoreSame(c, path[1..], v);
      SetFirstSame(d, path[0], Group(c));
    }
  }

  // ---------------------------------------------------------------- updates

  /**
   * An update of an existing key leaves the addressed key holding the new
   * boolean: the explicit value, or the negation of the old one.
   */
  lemma UpdateHit(d: seq<Entry>, path: seq<string>, value: Option<bool>)
    requires path != [] && Lookup(d, path).Some?
    ensures Lookup(Update(d, path, value), path) == Some(Leaf(NewValue(Lookup(d, path).value, value)))
    ensures value.None? && Lookup(d, path).value.Leaf? ==>
      Lookup(Update(d, path, value), path) == Some(Leaf(!Lookup(d, path).value.on))
  {
    StoreHit(d, path, Leaf(NewValue(Lookup(d, path).value, value)));
  }

  /** An update through a missing key or a non-map step changes nothing at all. */
  lemma UpdateMissing(d: seq<Entry>, path: seq<string>, value: Option<bool>)
    requires path != [] && Lookup(d, path) == None
    ensures Update(d, path, value) == d
    ensures forall b :: Store(d, path, Leaf(b)) == d
  {
    forall b ensures Store(d, path, Leaf(b)) == d {
      StoreMissing(d, path, Leaf(b));
    }
  }

  /** An update leaves every sibling and every other path with its value. */
  lemma UpdateElsewhere(d: seq<Entry>, path: seq<string>, value: Option<bool>, q: seq<string>)
    requires path != [] && Diverge(path, q)
    ensures Lookup(Update(d, path, value), q) == Lookup(d, q)
  {
    if Lookup(d, path).Some? {
      StoreElsewhere(d, path, Leaf(NewValue(Lookup(d, path).value, value)), q);
    }
  }

  /** An update never creates a key: every path it resolves was there before. */
  lemma UpdateNoNewPaths(d: seq<Entry>, path: seq<string>, value: Option<bool>, q: seq<string>)
    requires path != [] && q != []
    requires Lookup(Update(d, path, value), q).Some?
    ensures Lookup(d, q).Some?
  {
    if Lookup(d, path).Some? {
      StoreNoNewPaths(d, path, NewValue(Lookup(d, path).value, value), q);
    }
  }

  /** Toggling the same boolean leaf twice restores the original document. */
  lemma ToggleTwice(d: seq<Entry>, path: seq<string>, b: bool)
    requires path != [] && Lookup(d, path) == Some(Leaf(b))
    ensures Update(Update(d, path, None), path, None) == d
  {
    var d1 := Update(d, path, None);
    assert d1 == Store(d, path, Leaf(!b));
    StoreHit(d, path, Leaf(!b));
    StoreTwice(d, path, Leaf(!b), Leaf(b));
    StoreSame(d, path, Leaf(b));
  }

  /**
   * Toggling a key that holds a nested map does not fail: the whole map is
   * replaced by a boolean, false unless the map was empty.
   */
  lemma ToggleGroupOverwrites(d: seq<Entry>, path: seq<string>, children: seq<Entry>)
    requires path != [] && Lookup(d, path) == Some(Group(children))
    ensures Lookup(Update(d, path, None), path) == Some(Leaf(children == []))
  {
    UpdateHit(d, path, None);
  }
}

=== FILE: wrappers.dfy ===
/** Optional values: PHP's nullable parameters and "key not set" results. */
module Wrappers {

  datatype Option<+T> = None | Some(value: T)
}
